=== FILE: README.md ===
# Fact-check backend: a Dafny model

This project models the core of a small fact-checking service. A claim typed
into a web page goes to a Flask handler. The handler stores a pending record,
asks a verification engine about the claim, marks the record completed and
sends back a verdict, a credibility score and a summary. The engine holds one
chat session with a Gemini model. The model may request one web search
through the Serper API, and the engine always answers with a fixed result
token.

The model is functional. Records are immutable datatypes. The store is a
`map<int, FactCheck>` with a fresh-id counter. The language model and the
search provider are scripted inputs. Every call the engine makes to them is
recorded in a trace, so the number of searches and messages can be stated
exactly.

Modules, one per source file or concern:

- `Wrappers` (wrappers.dfy): `Option` and `Result`.
- `Text` (text.dfy): Python's `str.lower` (ASCII) and `str(n)`.
- `JsonValues` (json_values.dfy): JSON documents, and `JsonText` for "the output of `json.dumps`".
- `Models` (models.dfy): the `FactCheck` row and its defaults.
- `Database` (database.dfy): the store, the commit-or-rollback session, and create, update, get by id and list.
- `FactOrder` (fact_order.dfy): the newest-first order used by the listing.
- `AiModel` (ai_model.dfy): `get_search_results` and `verify_claim_with_ai`.
- `App` (app.dfy): `check_claims`, `format_fact_check_response` and `calculate_credibility_score`.
- `Client` (client.dfy): the pure decisions of `static/main.js`.
- `Pipeline` (pipeline.dfy): the handler, the engine and the page composed.

One consequence of the composition is proved in `Pipeline.CompletedChecksAreUnclear`.
The engine only returns "Needs Review", "Uncertain" or "Error". The handler
lower-cases these, and its verdict table contains none of them. So every
completed check reaches the page as `unclear` with score 50, whatever the
model says. The stored `result` is the raw lower-cased token, not the mapped
verdict.

Some behaviour of the code worth knowing before reading the contracts:

- The code has no verdict-marker parser. The engine returns fixed tokens.
- A failed verification is still stored with status `completed`. No path writes status `error`.
- `update_fact_check` signals nothing for an unknown id or a failed update. When the update raises, the handler still answers 200 with a verdict, while the row stays "pending" (`App.UpdateFaultLeavesPendingRow`).
- The update does not check the current status (`Database.CompletedCanBeOverwritten`).
- A function call in the follow-up reply is never acted on. Its `.text` raises, and the result is "Error" (`AiModel.FollowUpNotInspected`).

## Model

| member | source | states |
|---|---|---|
| `Models.NewFactCheck` | models.py:9-17 | A new record has no id, the given claim, status defaulting to "pending", no result, source or analysis, and both timestamps from the clock |
| `Database.GetDbSession` | database.py:6-17 | The session commits the working state exactly when the body returns and the final commit succeeds; otherwise the store is what was last committed and the exception is re-raised |
| `Database.SessionIsAllOrNothing` | database.py:9-17 | For a body that does not commit by itself, the store afterwards is either the body's working state or exactly the prior state, and a rollback always gives the prior state |
| `Database.CreateFactCheck` | database.py:19-31 | Create returns the fresh id exactly when nothing raised, and that id was unused and positive. A failed insert leaves the store unchanged. A failed refresh after the inner commit keeps the pending row but still returns None. The store invariant is preserved |
| `Database.UpdateFactCheck` | database.py:33-50 | On an existing id with no fault, status, result, analysis and updated_at are overwritten. id, claim, source_url, created_at, other rows and the key set never change. An absent id or any fault leaves the store unchanged |
| `Database.CompletedCanBeOverwritten` | database.py:37-44 | The update does not look at the current status: a completed record can be set back to "pending" |
| `Database.ColumnsRoundTrip` | database.py:60-69 | The returned dict carries every field: reading the row back from its columns gives the row |
| `Database.GetFactCheckById` | database.py:52-73 | Returns a dict exactly when there is no fault and the id exists. The dict has exactly the eight column keys and decodes back to the stored row |
| `Database.CreateThenGet` | database.py:19-69 | Reading a record right after creating it gives status "pending", the claim and id, and null result, analysis and source_url |
| `FactOrder.Insert` | database.py:79 | Inserting a key into a newest-first listing keeps it newest-first, adds exactly that key and grows it by one |
| `Database.GetAllFactChecks` | database.py:75-84 | The listing is `[]` on a fault. Otherwise it has min(limit, size) rows, or all rows when the limit is negative. Rows are ordered by created_at descending, all come from the store, and none is repeated. No row newer than a returned row is left out |
| `Database.GetRecentFactChecks` | database.py:75-84 | A call without a limit returns `[]` on a fault, and otherwise the newest min(100, size) rows: ordered by created_at descending, all from the store, none repeated, and no row newer than a returned row left out |
| `AiModel.SearchRequest` | ai_model.py:11-16 | The search POSTs to the Serper URL with body `{"q": query}`, the configured API key in `X-API-KEY` and a JSON content type |
| `AiModel.SearchFailure` | ai_model.py:17-21 | The search raises internally exactly when the request fails, the status is 4xx/5xx, or the body is not JSON |
| `AiModel.SearchResults` | ai_model.py:17-23 | The search never raises. It returns the provider's body re-serialised, or a serialised `{"error": "Error during web search: …"}` on failure |
| `AiModel.PromptRoundTrip` | ai_model.py:42-45 | The opening prompt quotes the claim verbatim: the claim can be read back out of it |
| `AiModel.Verify` | ai_model.py:25-58 | The output always has exactly the keys analysis and result, and result is one of the three tokens. At most one search and two messages are made. "Needs Review" implies exactly one search. "Uncertain" implies no search, and a first reply that contains no function call. "Error" carries the "An error occurred: " prefix |
| `AiModel.SearchRoundTrip` | ai_model.py:49-53 | A first reply that calls the search tool with a query gives exactly one search with that query and one tool response after the prompt. When the follow-up's `.text` succeeds (text parts only, joined with newlines), that text becomes the analysis with "Needs Review". A failed follow-up, or one with no parts or a function call, gives "Error" |
| `AiModel.DirectAnswer` | ai_model.py:47-58 | Any first reply that is not a search call makes no search and sends one message. A reply without function calls gives its text parts, joined with newlines, as the analysis with "Uncertain". A reply with a function call makes `.text` raise, so the result is the "Error" dict |
| `AiModel.TextRepliesJoin` | ai_model.py:53-55 | A reply made only of text parts gives, through `.text`, the part texts joined with newlines |
| `AiModel.MissingQueryIsError` | ai_model.py:49-58 | A search call without `query` is caught as the "Error" dict, with no search made. With no arguments at all, indexing `None` raises a TypeError ("'NoneType' object is not subscriptable"). With other arguments, the KeyError message is `'query'` |
| `AiModel.EarlyFaultsAreErrors` | ai_model.py:31-58 | A setup fault, a failed first send, or a reply with no parts ends in the "Error" dict, with no search. The dict carries the exception's message; for no parts, that is the runtime's `IndexError` message |
| `AiModel.FollowUpNotInspected` | ai_model.py:52-53 | Two follow-up replies whose `.text` gives the same result give the same run, whatever their parts: a second function call is never acted on |
| `AiModel.SearchFailureDoesNotAbort` | ai_model.py:51-53 | With the model's follow-up reply held fixed, the engine never branches on the provider's outcome. A failed search is sent to the model as an error object, and the session goes on |
| `App.VerdictMap` | app.py:84-95 | The map is total, and its output is always one of the four page verdicts. true comes only from "true"; false from "false" or "misleading"; partially-true from "partially true" or "partially-true"; everything else, including unknown tokens, gives unclear |
| `App.CredibilityScore` | app.py:107-115 | The score is 95, 15 or 65 exactly for true, false and partially-true, and 50 for anything else |
| `App.Summary` | app.py:101 | An analysis of at most 500 characters is kept whole. A longer one becomes its first 500 characters plus "...", so the summary never exceeds 503 characters |
| `App.SummaryKeepsShortPrefix` | app.py:101 | Any prefix of the analysis up to 500 characters survives at the start of the summary |
| `App.FormatResponse` | app.py:82-105 | The response echoes the claim and carries a page verdict, the score for that verdict, and the summary |
| `App.Analyse` | app.py:39-47 | The verdict is the engine's token lower-cased and the analysis is the engine's analysis; `.get` defaults never apply. When the engine raises, the verdict is "unclear" and the analysis is "AI analysis temporarily unavailable. Error: …" |
| `App.CheckClaims` | app.py:20-55 | 400 exactly for a missing or empty claim, with no call and no change. 500 after a create that gave no id, with no engine call and no update. Otherwise create, engine and update happen in that order, the update writes "completed" with the raw lower-cased verdict, and the response carries the mapped verdict. The final store is the update of the created store at the new id, with whatever fault the update met. The store invariant is preserved |
| `App.CompletedRecordHoldsRawVerdict` | app.py:38-53 | After a clean run the new row holds status "completed", the raw lower-cased verdict and the analysis, while the response holds the mapped verdict |
| `App.UpdateFaultLeavesPendingRow` | app.py:49-55 | When the update raises, the handler still answers 200 with the engine's verdict, while the new row stays "pending" with no result or analysis |
| `App.RefreshFaultLeavesPendingRow` | app.py:30-34 | When the refresh inside create fails, the handler answers 500, yet a pending row for the claim remains in the store |
| `App.EngineFaultIsAbsorbed` | app.py:39-47 | An engine that raises still yields 200 with verdict unclear, score 50, and a summary opening with "AI analysis temporarily unavailable." |
| `Pipeline.EngineTokensLowered` | app.py:41 | The engine's three tokens lower-case to "needs review", "uncertain" and "error" |
| `Pipeline.StoredTokensAreUnclear` | app.py:95 | The handler's table maps each lowered engine token, and "unclear", to unclear with score 50 |
| `Pipeline.AnalyseGivesStoredToken` | app.py:40-46 | The verdict the handler takes from the engine is always a lowered engine token, or "unclear" when the engine raised |
| `Pipeline.CompletedChecksAreUnclear` | app.py:38-53 | Every 200 response is unclear with score 50, and records "completed" with a lowered engine token, whatever the model and search do |
| `Pipeline.SearchedClaimScenario` | ai_model.py:49-53 | Worked example: one search and a follow-up answer. The record is completed with "needs review" and the answer as analysis; the page gets unclear with the answer as summary |
| `Pipeline.EveryAcceptedClaimShowsUnclear` | static/main.js:44-126 | Any claim the page accepts, on a healthy store, comes back as "Unclear Information" with class unclear, score 50 and low-credibility colour |
| `Client.Trim` | static/main.js:45 | trim() gives the empty string exactly for all-white-space input. Otherwise it is the slice starting at the first non-space character, with only white space removed before and after it |
| `Client.Utf16Length` | static/main.js:53 | JavaScript's length is between the number of characters and twice that, counting two UTF-16 code units for characters outside the BMP |
| `Client.ValidateClaim` | static/main.js:45-56 | The "enter a claim" alert comes exactly for all-white-space input. The "at least 5 characters" alert comes exactly for a trimmed claim shorter than 5 code units. Otherwise the trimmed claim, at least 3 characters with no white space at either end, is sent; 5 characters always pass |
| `Client.AcceptedClaimIsNotEmpty` | static/main.js:48-56 | A claim the page sends is never treated by the handler as missing |
| `Client.ShowVerdict` | static/main.js:88-111 | The header class is always one of the four verdict classes and equals the verdict for known verdicts. The fallback banner "Analysis Complete" with class unclear appears exactly for unknown verdicts |
| `Client.KnownVerdictsAreDistinguished` | static/main.js:91-106 | The four known verdicts get four different banner texts |
| `Client.ShownScore` | static/main.js:114 | A missing or zero score is shown as 50; any other score is shown as is; the shown score is never 0 |
| `Client.ScoreClass` | static/main.js:117-126 | Exactly one class is assigned: high for scores of 80 or more, medium for 60 to 79, low below 60 |
| `Client.ScoreClassIsMonotone` | static/main.js:120-126 | A higher score never gets a lower colour class |
| `Client.Render` | static/main.js:79-130 | The result card shows the claim between double quotes, the backend verdict's banner, the score with its class, and the summary, or the "no summary" text when it is empty |
| `Client.BackendAndPageAgree` | static/main.js:90-126 | For any response the backend formats, the page shows the backend's own verdict and score, never the fallback. true is high, partially-true medium, unclear and false low |

## Left out

- The interactive command-line tool `germini-ai.py` is not part of this model. It duplicates the engine, and its search helper returns a plain error string, not JSON.
- `setup_sqlite_db.py` and the engine, session and table creation in `models.py` are left out: they only bootstrap the database.
- Flask routing, `jsonify`, CORS, `render_template`, the home and health endpoints, the `/api/fact-check/<id>` route and `app.run` are left out: HTTP plumbing.
- The outer `except` of `check_claims` (app.py:57-62) has no counterpart. Create and update catch every exception and formatting cannot raise, so only a failing `print` could reach it, and console output is not modelled.
- `print` calls are not modelled. The one that matters, at the start of `verify_claim_with_ai` outside its `try`, is represented by `App.Env.engineFault`.
- `load_dotenv` and `os.getenv` are not modelled. The Serper API key is a parameter (`apiKey`).
- The Gemini SDK and the Serper HTTP call are not modelled. They are scripted inputs (`AiModel.Script`). A `.parts` accessor that raises counts as a failed send, and a failure while building the model or starting the chat counts as the `setup` fault.
- `AiModel.SearchRequest`: requests drops a header whose value is None before sending. The model keeps the header dict as the code builds it.
- `AiModel.HttpErrorText` uses the request URL. requests formats the message with the final response URL, which differs after a redirect.
- `JsonValues.JsonText`: the character-level output of `json.dumps` and the order of object members are not modelled.
- `extract_sources_from_analysis`, `extract_related_claims` and the `checkedAt` date are left out of `App.FactCheckResponse`: they return constants or read the clock.
- `Text.Lower` lower-cases ASCII letters only. Python's `str.lower` also maps other Unicode letters. No such letter lower-cases into a key of the verdict table that the ASCII version would miss.
- `Models.NewFactCheck` reads the clock once for both timestamps. The two default factories read it separately and may differ by microseconds.
- `Database.GetDbSession`: closing the session is not modelled. It releases the connection and has no effect on the stored rows.
- `Database.GetAllFactChecks` returns the rows the query selects, with every field readable. The code returns ORM instances from inside the `with` block (database.py:81). The session then commits (database.py:12), which expires the loaded instances by default, and closes (database.py:17), which detaches them. A caller that reads a field of a returned instance gets `DetachedInstanceError`. The model describes the listing the query computes, not these unusable objects. No code in the modelled core calls this function.
- `Database.GetAllFactChecks` breaks ties in created_at by the larger id. SQL leaves that order open, so this is one of the orders the query may return.
- In `static/main.js`, DOM updates, `fetch`, `testAPI`, `formatDate`, the sources and related-claims lists, the error alert text, the online/offline listeners and scrolling are left out: they are effects or locale formatting.
- `Client.ShowVerdict` and `Client.ShownScore`: a JSON response without a verdict, or with a non-numeric score, is not modelled. The backend always sends both.
- Time-outs are not modelled. `requests.post` (ai_model.py:18) is called without a timeout, and the Gemini calls pass no request options. A provider that never answers blocks the request forever. Every `AiModel.Send` and `AiModel.ProviderOutcome` in a script is a finished call, so the model assumes every external call returns.
- `AiModel.ReplyText` follows the `.text` accessor of google-generativeai 0.8. That accessor joins the texts of the text parts with "\n", raises "Could not convert `part.function_call` to text." on a function-call part, and raises a finish-reason message (supplied by the script) when there are no parts. Older versions refuse any reply that is not a single text part. Those versions are not modelled.
- `AiModel.MissingQueryIsError`: a call the model sends without arguments reads as `args == None`. This follows proto-plus, which gives `None` for an unset `Struct` field.
- Concurrent requests and transaction isolation are not modelled.

=== FILE: ai_model.dfy ===
/** The verification engine: one chat session with the language model, at
    most one web-search round trip, and a fixed result token. The model and
    the search provider are opaque: their answers come from a `Script`, and
    every call the engine makes to them is recorded in a trace. */
module AiModel {
  import opened Wrappers
  import opened JsonValues
  import Text

  const SearchToolName := "get_search_results"
  const ModelName := "gemini-1.5-pro"
  const SearchUrl := "https://google.serper.dev/search"

  const NeedsReview := "Needs Review"
  const Uncertain := "Uncertain"
  const ErrorToken := "Error"

  /** The three result tokens the engine can produce. */
  const ResultTokens: set<string> := {NeedsReview, Uncertain, ErrorToken}

  // ---------------------------------------------------------------------
  // What the engine exchanges with its collaborators

  /** A function the model may call: a name, a description, and typed
      parameters with the required ones listed. */
  datatype ToolDecl = ToolDecl(name: string, description: string, params: map<string, string>, required: seq<string>)

  /** The one tool the engine declares. */
  const SearchTool := ToolDecl(
    SearchToolName,
    "Gets real-time search results from the web for a given query to verify a statement.",
    map["query" := "STRING"],
    ["query"])

  /** A function call requested by the model. Its `args` is a protobuf
      `Struct` field, which reads as `None` when the model sent no arguments. */
  datatype FunctionCall = FunctionCall(name: string, args: Option<map<string, Json>>)

  /** One part of a model reply: text, or a request to call a function. */
  datatype Part = TextPart(text: string) | CallPart(call: FunctionCall)

  /** A model reply: its parts, and the message `.text` raises with when
      there are none (it names the candidate's finish reason). */
  datatype Reply = Reply(parts: seq<Part>, noParts: string)

  /** Some part of the reply is a function call. */
  predicate HasCall(reply: Reply) {
    exists i :: 0 <= i < |reply.parts| && reply.parts[i].CallPart?
  }

  /** The message `.text` raises with when a part is a function call. */
  const CallNotText := "Could not convert `part.function_call` to text."

  /** The texts of the text parts, in order. */
  function PartTexts(parts: seq<Part>): (texts: seq<string>)
    ensures |texts| <= |parts|
    ensures (forall i :: 0 <= i < |parts| ==> parts[i].TextPart?) ==>
      |texts| == |parts| && forall i :: 0 <= i < |parts| ==> texts[i] == parts[i].text
  {
    if parts == [] then []
    else (if parts[0].TextPart? then [parts[0].text] else []) + PartTexts(parts[1..])
  }

  /** Python's `"\n".join(texts)`: a newline between consecutive strings. */
  function JoinLines(texts: seq<string>): (t: string)
    ensures texts == [] ==> t == ""
    ensures |texts| == 1 ==> t == texts[0]
  {
    if texts == [] then "" else if |texts| == 1 then texts[0] else texts[0] + "\n" + JoinLines(texts[1..])
  }

  /** The text parts' texts joined with newlines, as `.text` returns them. */
  function JoinTexts(parts: seq<Part>): (t: string) {
    JoinLines(PartTexts(parts))
  }

  /** What the SDK's `.text` accessor gives for a reply: it raises when there
      are no parts or when a part is a function call, and otherwise joins the
      texts of the parts with newlines. */
  function ReplyText(reply: Reply): (r: Result<string, string>)
    ensures reply.parts == [] ==> r == Failure(reply.noParts)
    ensures reply.parts != [] && HasCall(reply) ==> r == Failure(CallNotText)
    ensures r.Success? <==> reply.parts != [] && !HasCall(reply)
    ensures r.Success? ==> r.value == JoinTexts(reply.parts)
  {
    if reply.parts == [] then Failure(reply.noParts)
    else if HasCall(reply) then Failure(CallNotText)
    else Success(JoinTexts(reply.parts))
  }

  /** A reply made of text parts reads as their texts joined with
      newlines, whatever their number. */
  lemma TextRepliesJoin(texts: seq<string>, noParts: string)
    requires texts != []
    ensures var reply := Reply(seq(|texts|, i requires 0 <= i < |texts| => TextPart(texts[i])), noParts);
      ReplyText(reply) == Success(JoinLines(texts))
  {
    var parts := seq(|texts|, i requires 0 <= i < |texts| => TextPart(texts[i]));
    assert forall i :: 0 <= i < |parts| ==> parts[i].TextPart?;
    assert PartTexts(parts) == texts;
    assert !HasCall(Reply(parts, noParts));
  }

  /** Two text parts "a" and "b" read as "a\nb", not "ab". */
  lemma TwoTextParts(a: string, b: string, noParts: string)
    ensures ReplyText(Reply([TextPart(a), TextPart(b)], noParts)) == Success(a + "\n" + b)
  {
    TextRepliesJoin([a, b], noParts);
    assert seq(2, i requires 0 <= i < 2 => TextPart([a, b][i])) == [TextPart(a), TextPart(b)];
  }

  /** The outcome of `chat.send_message(...)`: a reply, or an exception. */
  datatype Send = Replied(reply: Reply) | SendFailed(error: string)

  /** A message the engine sends into the chat. */
  datatype Message =
    | UserText(text: string)
    | ToolResponse(name: string, response: map<string, JsonText>)

  /** An HTTP request to the search provider. Header values are what the
      code puts in the dict (`None` when the API key is not configured). */
  datatype HttpRequest = HttpRequest(url: string, headers: map<string, Option<string>>, body: JsonText)

  /** What the HTTP layer does with the search request: raise before any
      response, or answer with a status, a reason phrase and a body that is
      or is not valid JSON. */
  datatype ProviderOutcome =
    | RequestFailed(error: string)
    | Responded(status: nat, reason: string, body: Result<Json, string>)

  /** The scripted behaviour of the outside world for one session: whether
      building the model and chat raises, the reply to the prompt, the
      provider's answer to a search, the reply to the tool response, and
      the message of the `IndexError` the protobuf runtime raises when an
      empty part list is indexed. */
  datatype Script = Script(setup: Option<string>, first: Send, search: ProviderOutcome, followUp: Send,
                           emptyParts: string)

  /** One call the engine makes to a collaborator. */
  datatype Event =
    | StartChat(model: string, tools: seq<ToolDecl>)
    | SendMessage(message: Message)
    | Search(request: HttpRequest)

  /** What one session produces: the result dict, and the calls it made. */
  datatype Run = Run(output: map<string, string>, trace: seq<Event>)

  // ---------------------------------------------------------------------
  // get_search_results

  /** The request `get_search_results` sends for `query`. */
  function SearchRequest(query: Json, apiKey: Option<string>): (req: HttpRequest)
    ensures req.url == SearchUrl
    ensures req.body == Dumped(JObject(map["q" := query]))
    ensures req.headers.Keys == {"X-API-KEY", "Content-Type"}
    ensures req.headers["X-API-KEY"] == apiKey
    ensures req.headers["Content-Type"] == Some("application/json")
  {
    HttpRequest(SearchUrl,
                map["X-API-KEY" := apiKey, "Content-Type" := Some("application/json")],
                Dumped(JObject(map["q" := query])))
  }

  /** `raise_for_status()` raises for 4xx and 5xx statuses. */
  predicate IsErrorStatus(status: nat) {
    400 <= status < 600
  }

  /** The message of the `HTTPError` that `raise_for_status()` raises. */
  function HttpErrorText(status: nat, reason: string): (msg: string)
    requires IsErrorStatus(status)
  {
    var kind := if status < 500 then " Client Error: " else " Server Error: ";
    Text.NatToString(status) + kind + reason + " for url: " + SearchUrl
  }

  /** The `RequestException` the search raises internally, if any. */
  function SearchFailure(outcome: ProviderOutcome): (r: Option<string>)
    ensures r == None <==> outcome.Responded? && !IsErrorStatus(outcome.status) && outcome.body.Success?
  {
    match outcome
    case RequestFailed(e) => Some(e)
    case Responded(status, reason, body) =>
      if IsErrorStatus(status) then Some(HttpErrorText(status, reason))
      else if body.Failure? then Some(body.error)
      else None
  }

  const SearchErrorPrefix := "Error during web search: "

  /** `get_search_results`: the provider's JSON body, re-serialised; on a
      request exception, a serialised `{"error": ...}` object instead. It
      never raises. */
  function SearchResults(outcome: ProviderOutcome): (r: JsonText)
    ensures SearchFailure(outcome) == None ==> r == Dumped(outcome.body.value)
    ensures SearchFailure(outcome).Some? ==>
      r == Dumped(JObject(map["error" := JString(SearchErrorPrefix + SearchFailure(outcome).value)]))
  {
    match SearchFailure(outcome)
    case None => Dumped(outcome.body.value)
    case Some(e) => Dumped(JObject(map["error" := JString(SearchErrorPrefix + e)]))
  }

  // ---------------------------------------------------------------------
  // verify_claim_with_ai

  const PromptHead := "\n        Please fact-check this statement: '"
  const PromptTail := "'. Use the search tool to find evidence.\n        Provide a final verdict (e.g., 'True', 'False', 'Misleading', 'Uncertain') and a brief analysis summarizing the findings and citing sources.\n        "

  /** The prompt that opens the session. */
  function Prompt(claim: string): (p: string) {
    PromptHead + claim + PromptTail
  }

  /** Removes a known head and tail from `p`, if it has them. */
  function Strip(p: string, head: string, tail: string): (r: Option<string>)
    ensures r.Some? ==> head + r.value + tail == p
  {
    if |p| >= |head| + |tail| && p[..|head|] == head && p[|p| - |tail|..] == tail
    then
      var c := p[|head|..|p| - |tail|];
      assert p == p[..|head|] + c + p[|p| - |tail|..];
      Some(c)
    else None
  }

  lemma StripConcat(head: string, c: string, tail: string)
    ensures Strip(head + c + tail, head, tail) == Some(c)
  {
    var p := head + c + tail;
    assert p[..|head|] == head;
    assert p[|p| - |tail|..] == tail;
    assert p[|head|..|p| - |tail|] == c;
  }

  /** Recovers the claim from a prompt. */
  function ClaimOfPrompt(p: string): (r: Option<string>)
    ensures r.Some? ==> Prompt(r.value) == p
  {
    Strip(p, PromptHead, PromptTail)
  }

  /** The prompt states the claim verbatim: it can be read back out. */
  lemma PromptRoundTrip(claim: string)
    ensures ClaimOfPrompt(Prompt(claim)) == Some(claim)
  {
    StripConcat(PromptHead, claim, PromptTail);
  }

  /** The dict returned on success or failure. */
  function Outcome(analysis: string, result: string): (d: map<string, string>)
    ensures d.Keys == {"analysis", "result"}
    ensures d["analysis"] == analysis && d["result"] == result
  {
    map["analysis" := analysis, "result" := result]
  }

  const ErrorPrefix := "An error occurred: "

  /** The dict built by the catch-all handler. */
  function ErrorOutcome(message: string): (d: map<string, string>) {
    Outcome(ErrorPrefix + message, ErrorToken)
  }

  /** The message of the `TypeError` raised by indexing `None`. */
  const NotSubscriptable := "'NoneType' object is not subscriptable"

  /** The call carries a `query` argument. */
  predicate HasQuery(call: FunctionCall) {
    call.args.Some? && "query" in call.args.value
  }

  /** The first reply part asks for the search tool. */
  predicate IsSearchCall(p: Part) {
    p.CallPart? && p.call.name == SearchToolName
  }

  /** The trace once the chat is open and the prompt is sent. */
  function Opening(claim: string): (t: seq<Event>) {
    [StartChat(ModelName, [SearchTool]), SendMessage(UserText(Prompt(claim)))]
  }

  /** The message that hands the search results back to the model. */
  function ToolResult(results: JsonText): (m: Message) {
    ToolResponse(SearchToolName, map["result" := results])
  }

  /** `verify_claim_with_ai`. Every exception inside the session (setup,
      a failed send, a reply with no parts, a search call without a `query`
      argument, a `.text` that raises) ends in the `"Error"` dict. */
  function Verify(claim: string, apiKey: Option<string>, script: Script): (r: Run)
    ensures r.output.Keys == {"analysis", "result"}
    ensures r.output["result"] in ResultTokens
    ensures CountSearches(r.trace) <= 1
    ensures CountSends(r.trace) <= 2
    ensures r.output["result"] == NeedsReview ==> CountSearches(r.trace) == 1
    ensures r.output["result"] == Uncertain ==> CountSearches(r.trace) == 0
    ensures r.output["result"] == Uncertain ==> script.first.Replied? && !HasCall(script.first.reply)
    ensures r.output["result"] == ErrorToken ==> ErrorPrefix <= r.output["analysis"]
  {
    if script.setup.Some? then
      Run(ErrorOutcome(script.setup.value), [])
    else
      var start := Opening(claim);
      OpeningCounts(claim);
      match script.first
      case SendFailed(e) => Run(ErrorOutcome(e), start)
      case Replied(reply) =>
        if |reply.parts| == 0 then
          Run(ErrorOutcome(script.emptyParts), start)
        else if IsSearchCall(reply.parts[0]) then
          var args := reply.parts[0].call.args;
          if args == None then
            Run(ErrorOutcome(NotSubscriptable), start)
          else if "query" !in args.value then
            Run(ErrorOutcome("'query'"), start)
          else
            var round := [Search(SearchRequest(args.value["query"], apiKey)),
                          SendMessage(ToolResult(SearchResults(script.search)))];
            var trace := start + round;
            CountsAppend(start, round);
            assert round == [round[0]] + [round[1]];
            CountsAppend([round[0]], [round[1]]);
            match script.followUp
            case SendFailed(e) => Run(ErrorOutcome(e), trace)
            case Replied(final) =>
              match ReplyText(final)
              case Success(t) => Run(Outcome(t, NeedsReview), trace)
              case Failure(e) => Run(ErrorOutcome(e), trace)
        else
          match ReplyText(reply)
          case Success(t) => Run(Outcome(t, Uncertain), start)
          case Failure(e) => Run(ErrorOutcome(e), start)
  }

  // ---------------------------------------------------------------------
  // Properties of a session

  /** When the first reply part is a search call with a `query`, the
      search runs exactly once with that query, exactly one tool response
      follows the prompt, and the follow-up's text becomes the analysis
      with result "Needs Review". */
  lemma SearchRoundTrip(claim: string, apiKey: Option<string>, script: Script)
    requires script.setup == None && script.first.Replied?
    requires |script.first.reply.parts| > 0 && IsSearchCall(script.first.reply.parts[0])
    requires HasQuery(script.first.reply.parts[0].call)
    ensures var q := script.first.reply.parts[0].call.args.value["query"];
      Verify(claim, apiKey, script).trace
        == Opening(claim) + [Search(SearchRequest(q, apiKey)), SendMessage(ToolResult(SearchResults(script.search)))]
    ensures CountSearches(Verify(claim, apiKey, script).trace) == 1
    ensures CountSends(Verify(claim, apiKey, script).trace) == 2
    ensures script.followUp.Replied? && ReplyText(script.followUp.reply).Success? ==>
      Verify(claim, apiKey, script).output == Outcome(ReplyText(script.followUp.reply).value, NeedsReview)
    ensures !(script.followUp.Replied? && ReplyText(script.followUp.reply).Success?) ==>
      Verify(claim, apiKey, script).output["result"] == ErrorToken
  {
    var q := script.first.reply.parts[0].call.args.value["query"];
    var round := [Search(SearchRequest(q, apiKey)), SendMessage(ToolResult(SearchResults(script.search)))];
    OpeningCounts(claim);
    CountsAppend(Opening(claim), round);
    assert round == [round[0]] + [round[1]];
    CountsAppend([round[0]], [round[1]]);
  }

  /** Any other first reply triggers no search and no further message. A
      text reply's text is the analysis, with result "Uncertain"; a call to
      another function makes `.text` raise, so the result is "Error". */
  lemma DirectAnswer(claim: string, apiKey: Option<string>, script: Script)
    requires script.setup == None && script.first.Replied?
    requires |script.first.reply.parts| > 0 && !IsSearchCall(script.first.reply.parts[0])
    ensures Verify(claim, apiKey, script).trace == Opening(claim)
    ensures CountSearches(Verify(claim, apiKey, script).trace) == 0
    ensures CountSends(Verify(claim, apiKey, script).trace) == 1
    ensures !HasCall(script.first.reply) ==>
      Verify(claim, apiKey, script).output == Outcome(JoinTexts(script.first.reply.parts), Uncertain)
    ensures HasCall(script.first.reply) ==>
      Verify(claim, apiKey, script).output == ErrorOutcome(CallNotText)
    ensures script.first.reply.parts[0].CallPart? ==>
      Verify(claim, apiKey, script).output["result"] == ErrorToken
  {
    OpeningCounts(claim);
  }

  /** A search call without a `query` argument is caught as an error: with
      no arguments at all, indexing `None` raises a `TypeError`; with other
      arguments, `KeyError('query')`. No search is made. */
  lemma MissingQueryIsError(claim: string, apiKey: Option<string>, script: Script)
    requires script.setup == None && script.first.Replied?
    requires |script.first.reply.parts| > 0 && IsSearchCall(script.first.reply.parts[0])
    requires !HasQuery(script.first.reply.parts[0].call)
    ensures script.first.reply.parts[0].call.args == None ==>
      Verify(claim, apiKey, script).output == ErrorOutcome(NotSubscriptable)
    ensures script.first.reply.parts[0].call.args.Some? ==>
      Verify(claim, apiKey, script).output == ErrorOutcome("'query'")
    ensures CountSearches(Verify(claim, apiKey, script).trace) == 0
  {
    OpeningCounts(claim);
  }

  /** A failure to set up the model or to send the prompt, or a reply with
      no parts, ends the session with the error dict and no search. */
  lemma EarlyFaultsAreErrors(claim: string, apiKey: Option<string>, script: Script)
    requires || script.setup.Some?
             || script.first.SendFailed?
             || (script.first.Replied? && script.first.reply.parts == [])
    ensures Verify(claim, apiKey, script).output["result"] == ErrorToken
    ensures CountSearches(Verify(claim, apiKey, script).trace) == 0
    ensures script.setup.Some? ==>
      Verify(claim, apiKey, script) == Run(ErrorOutcome(script.setup.value), [])
    ensures script.setup == None && script.first.SendFailed? ==>
      Verify(claim, apiKey, script).output == ErrorOutcome(script.first.error)
    ensures script.setup == None && script.first.Replied? ==>
      Verify(claim, apiKey, script).output == ErrorOutcome(script.emptyParts)
  {
    OpeningCounts(claim);
  }

  /** Two follow-up replies whose `.text` gives the same result are handled
      alike, whatever their parts: the follow-up is never inspected for a
      further function call, so there is at most one tool round trip. */
  lemma FollowUpNotInspected(claim: string, apiKey: Option<string>, script: Script, other: Reply)
    requires script.followUp.Replied? && ReplyText(other) == ReplyText(script.followUp.reply)
    ensures Verify(claim, apiKey, script.(followUp := Replied(other))) == Verify(claim, apiKey, script)
  {
  }

  /** With the model's follow-up reply held fixed, the engine never branches
      on the provider's outcome: a failed search is sent to the model as an
      error object and the session goes on. */
  lemma SearchFailureDoesNotAbort(claim: string, apiKey: Option<string>, script: Script, other: ProviderOutcome)
    ensures Verify(claim, apiKey, script.(search := other)).output == Verify(claim, apiKey, script).output
  {
  }

  // ---------------------------------------------------------------------
  // Counting calls in a trace

  /** How many search requests a trace holds. */
  function CountSearches(t: seq<Event>): (n: nat) {
    if t == [] then 0 else (if t[0].Search? then 1 else 0) + CountSearches(t[1..])
  }

  /** How many messages a trace sends into the chat. */
  function CountSends(t: seq<Event>): (n: nat) {
    if t == [] then 0 else (if t[0].SendMessage? then 1 else 0) + CountSends(t[1..])
  }

  /** Counts add up over concatenated traces. */
  lemma {:induction false} CountsAppend(a: seq<Event>, b: seq<Event>)
    ensures CountSearches(a + b) == CountSearches(a) + CountSearches(b)
    ensures CountSends(a + b) == CountSends(a) + CountSends(b)
  {
    if a != [] {
      assert (a + b)[1..] == a[1..] + b;
      CountsAppend(a[1..], b);
    } else {
      assert a + b == b;
    }
  }

  /** Opening a session sends exactly the prompt and searches nothing. */
  lemma OpeningCounts(claim: string)
    ensures CountSearches(Opening(claim)) == 0
    ensures CountSends(Opening(claim)) == 1
  {
    var t := Opening(claim);
    assert t == [t[0]] + [t[1]];
    CountsAppend([t[0]], [t[1]]);
  }
}

=== FILE: app.dfy ===
/** The request handler of the backend: the `check-claims` pipeline and the
    pure tables that turn a verdict into the response the page receives. */
module App {
  import opened Wrappers
  import opened Models
  import Text
  import Database
  import AiModel

  // ---------------------------------------------------------------------
  // format_fact_check_response and calculate_credibility_score

  /** The verdicts the page knows how to show. */
  const Canonical: set<string> := {"true", "false", "unclear", "partially-true"}

  /** The lookup table from lower-cased engine verdicts to page verdicts. */
  const VerdictTable: map<string, string> := map[
    "true" := "true",
    "false" := "false",
    "unclear" := "unclear",
    "uncertain" := "unclear",
    "misleading" := "false",
    "partially true" := "partially-true",
    "partially-true" := "partially-true"]

  /** `verdict_map.get(verdict, 'unclear')`: total, always a page verdict. */
  function VerdictMap(verdict: string): (r: string)
    ensures r in Canonical
    ensures r == "true" <==> verdict == "true"
    ensures r == "false" <==> verdict == "false" || verdict == "misleading"
    ensures r == "partially-true" <==> verdict == "partially true" || verdict == "partially-true"
    ensures r == "unclear" <==> verdict !in VerdictTable || verdict in {"unclear", "uncertain"}
  {
    if verdict in VerdictTable then VerdictTable[verdict] else "unclear"
  }

  /** Every page verdict is its own image. */
  lemma VerdictMapFixesCanonical(v: string)
    requires v in Canonical
    ensures VerdictMap(v) == v
  {
  }

  /** `calculate_credibility_score`: 95, 15, 65 and 50 for the four page
      verdicts, and 50 for anything else. */
  function CredibilityScore(verdict: string): (score: int)
    ensures score in {95, 15, 65, 50}
    ensures score == 95 <==> verdict == "true"
    ensures score == 15 <==> verdict == "false"
    ensures score == 65 <==> verdict == "partially-true"
    ensures score == 50 <==> verdict !in {"true", "false", "partially-true"}
  {
    var scores := map["true" := 95, "false" := 15, "partially-true" := 65, "unclear" := 50];
    if verdict in scores then scores[verdict] else 50
  }

  /** Longest analysis sent back whole. */
  const SummaryLimit := 500

  /** The summary: the analysis when it is at most 500 characters long,
      otherwise its first 500 characters followed by "...". */
  function Summary(analysis: string): (r: string)
    ensures |analysis| <= SummaryLimit ==> r == analysis
    ensures |analysis| > SummaryLimit ==>
      |r| == SummaryLimit + 3 && r[..SummaryLimit] == analysis[..SummaryLimit] && r[SummaryLimit..] == "..."
    ensures |r| <= SummaryLimit + 3
  {
    if |analysis| > SummaryLimit then analysis[..SummaryLimit] + "..." else analysis
  }

  /** Whatever the summary's length, a prefix of the analysis no longer
      than 500 characters survives in it. */
  lemma SummaryKeepsShortPrefix(prefix: string, rest: string)
    requires |prefix| <= SummaryLimit
    ensures prefix <= Summary(prefix + rest)
  {
    var a := prefix + rest;
    if |a| > SummaryLimit {
      assert a[..SummaryLimit][..|prefix|] == prefix;
    }
  }

  /** The body of a successful response (the constant `sources`,
      `relatedClaims` and the date are not modelled). */
  datatype FactCheckResponse = FactCheckResponse(claim: string, verdict: string, credibilityScore: int, summary: string)

  /** `format_fact_check_response`. */
  function FormatResponse(claim: string, verdict: string, analysis: string): (r: FactCheckResponse)
    ensures r.claim == claim
    ensures r.verdict in Canonical && r.verdict == VerdictMap(verdict)
    ensures r.credibilityScore == CredibilityScore(r.verdict)
    ensures r.summary == Summary(analysis)
  {
    var v := VerdictMap(verdict);
    FactCheckResponse(claim, v, CredibilityScore(v), Summary(analysis))
  }

  // ---------------------------------------------------------------------
  // check_claims

  /** A response body: an error object, or a formatted fact check. */
  datatype ResponseBody = ErrorBody(error: string) | FactCheckBody(fact: FactCheckResponse)

  datatype HttpResponse = HttpResponse(code: int, body: ResponseBody)

  /** A call the handler makes to the store or the engine. */
  datatype Effect =
    | CreateRecord(claim: string)
    | AskEngine(claim: string)
    | UpdateRecord(id: int, status: string, result: string, analysis: string)

  /** Everything the handler depends on besides the query string and the
      store: how the store behaves, the clock, and the engine's world (the
      search API key and the scripted model and provider). `engineFault` is
      an exception raised by the engine before its own catch-all takes over:
      the `print` that opens `verify_claim_with_ai` stands outside its `try`. */
  datatype Env = Env(
    createFault: Database.CreateFault,
    createdAt: Time,
    engineFault: Option<string>,
    apiKey: Option<string>,
    script: AiModel.Script,
    updateFault: Database.UpdateFault,
    updatedAt: Time)

  /** What one request leaves behind: the response, the store, and the calls made. */
  datatype Handled = Handled(response: HttpResponse, store: Database.Store, effects: seq<Effect>)

  /** `d.get(key, default)`. */
  function DictGet(d: map<string, string>, key: string, default: string): (r: string)
    ensures key in d ==> r == d[key]
    ensures key !in d ==> r == default
  {
    if key in d then d[key] else default
  }

  const UnavailablePrefix := "AI analysis temporarily unavailable. Error: "

  /** Step 2 of the handler: the lower-cased verdict and the analysis from
      the engine's dict, or `unclear` and an apology when the engine raises.
      The engine's dict always has both keys, so the defaults of `.get` are
      never used. */
  function Analyse(claim: string, env: Env): (r: (string, string))
    ensures env.engineFault.Some? ==> r == ("unclear", UnavailablePrefix + env.engineFault.value)
    ensures env.engineFault == None ==>
      var out := AiModel.Verify(claim, env.apiKey, env.script).output;
      r == (Text.Lower(out["result"]), out["analysis"])
    ensures Text.IsLowerCase(r.0)
  {
    match env.engineFault
    case Some(e) => ("unclear", UnavailablePrefix + e)
    case None =>
      var d := AiModel.Verify(claim, env.apiKey, env.script).output;
      var v := DictGet(d, "result", "unclear");
      Text.LowerIsIdempotent(v);
      (Text.Lower(v), DictGet(d, "analysis", "Analysis unavailable."))
  }

  /** The handler answers 400 exactly when the claim is missing or empty. */
  predicate NoClaim(arg: Option<string>) {
    arg == None || arg == Some("")
  }

  /** `check_claims`: reject a missing claim; create the record; stop with
      500 when no id came back; ask the engine (an exception becomes
      `unclear`); record the outcome as completed with the raw lower-cased
      verdict; answer with the formatted response. */
  function CheckClaims(arg: Option<string>, s: Database.Store, env: Env): (r: Handled)
    ensures r.response.code in {200, 400, 500}
    ensures r.response.code == 400 <==> NoClaim(arg)
    ensures NoClaim(arg) ==> r.store == s && r.effects == []
    ensures r.response.code == 500 ==> r.effects == [CreateRecord(arg.value)]
    ensures r.response.code == 200 ==>
      && |r.effects| == 3
      && r.effects[0] == CreateRecord(arg.value)
      && r.effects[1] == AskEngine(arg.value)
      && r.effects[2].UpdateRecord?
      && r.effects[2].status == Completed
      && (r.effects[2].result, r.effects[2].analysis) == Analyse(arg.value, env)
      && r.response.body == FactCheckBody(FormatResponse(arg.value, r.effects[2].result, r.effects[2].analysis))
    ensures r.response.code == 200 ==>
      && r.effects[2].id == s.nextId
      && r.store == Database.UpdateFactCheck(
           Database.CreateFactCheck(s, arg.value, env.createdAt, env.createFault).1,
           s.nextId, Completed, r.effects[2].result, r.effects[2].analysis, env.updatedAt, env.updateFault)
    ensures Database.Valid(s) ==> Database.Valid(r.store)
    ensures Database.Valid(s) && !NoClaim(arg) ==>
      (r.response.code == 500 <==> env.createFault != Database.NoCreateFault)
  {
    if NoClaim(arg) then
      Handled(HttpResponse(400, ErrorBody("No claim provided")), s, [])
    else
      var claim := arg.value;
      var (id, s1) := Database.CreateFactCheck(s, claim, env.createdAt, env.createFault);
      if id == None || id.value == 0 then
        Handled(HttpResponse(500, ErrorBody("Failed to save claim to database")), s1, [CreateRecord(claim)])
      else
        var (verdict, analysis) := Analyse(claim, env);
        var s2 := Database.UpdateFactCheck(s1, id.value, Completed, verdict, analysis, env.updatedAt, env.updateFault);
        Handled(HttpResponse(200, FactCheckBody(FormatResponse(claim, verdict, analysis))), s2,
                [CreateRecord(claim), AskEngine(claim), UpdateRecord(id.value, Completed, verdict, analysis)])
  }

  /** On success the new record holds status "completed" and the raw
      lower-cased verdict, not the page verdict; the response carries the
      mapped one. */
  lemma CompletedRecordHoldsRawVerdict(claim: string, s: Database.Store, env: Env)
    requires Database.Valid(s) && claim != ""
    requires env.createFault == Database.NoCreateFault && env.updateFault == Database.NoUpdateFault
    ensures var r := CheckClaims(Some(claim), s, env);
      var (verdict, analysis) := Analyse(claim, env);
      && r.response.code == 200
      && r.store.rows[s.nextId].status == Completed
      && r.store.rows[s.nextId].result == Some(verdict)
      && r.store.rows[s.nextId].analysis == Some(analysis)
      && r.store.rows[s.nextId].claim == claim
      && r.response.body.fact.verdict == VerdictMap(verdict)
  {
  }

  /** A refresh that fails after the body's own commit makes the handler
      answer 500, yet the new row stays in the store, pending for good. */
  lemma RefreshFaultLeavesPendingRow(claim: string, s: Database.Store, env: Env)
    requires Database.Valid(s) && claim != ""
    requires env.createFault.RefreshFailed?
    ensures var r := CheckClaims(Some(claim), s, env);
      && r.response.code == 500
      && r.effects == [CreateRecord(claim)]
      && s.nextId in r.store.rows && s.nextId !in s.rows
      && r.store.rows[s.nextId].status == Pending
      && r.store.rows[s.nextId].claim == claim
  {
  }

  /** The handler never learns whether the update took effect: when it
      raises, the answer is still 200 with the engine's verdict, while the
      row stays pending with no result. */
  lemma UpdateFaultLeavesPendingRow(claim: string, s: Database.Store, env: Env)
    requires Database.Valid(s) && claim != ""
    requires env.createFault == Database.NoCreateFault && env.updateFault != Database.NoUpdateFault
    ensures var r := CheckClaims(Some(claim), s, env);
      && r.response.code == 200
      && r.response.body.fact.verdict == VerdictMap(Analyse(claim, env).0)
      && r.store.rows[s.nextId].status == Pending
      && r.store.rows[s.nextId].result == None
      && r.store.rows[s.nextId].analysis == None
  {
  }

  /** An engine that raises does not fail the request: the page gets
      `unclear`, score 50, and a summary opening with the apology. */
  lemma EngineFaultIsAbsorbed(claim: string, s: Database.Store, env: Env)
    requires Database.Valid(s) && claim != ""
    requires env.createFault == Database.NoCreateFault
    requires env.engineFault.Some?
    ensures var r := CheckClaims(Some(claim), s, env);
      && r.response.code == 200
      && r.response.body.fact.verdict == "unclear"
      && r.response.body.fact.credibilityScore == 50
      && "AI analysis temporarily unavailable." <= r.response.body.fact.summary
  {
    SummaryKeepsShortPrefix(UnavailablePrefix, env.engineFault.value);
    assert "AI analysis temporarily unavailable." <= UnavailablePrefix;
  }
}

=== FILE: client.dfy ===
/** The pure decisions of the browser page: validating the typed claim,
    and turning the backend's response into the verdict banner and the
    colour of the credibility score. */
module Client {
  import opened Wrappers
  import App

  // ---------------------------------------------------------------------
  // String.prototype.trim and String.prototype.length

  /** The characters `trim()` removes: ECMAScript WhiteSpace and LineTerminator. */
  predicate IsJsSpace(c: char) {
    || c == '\t' || c == '\n' || c == '\U{000B}' || c == '\U{000C}' || c == '\r' || c == ' '
    || c == '\U{00A0}' || c == '\U{1680}' || ('\U{2000}' <= c <= '\U{200A}')
    || c == '\U{2028}' || c == '\U{2029}' || c == '\U{202F}' || c == '\U{205F}'
    || c == '\U{3000}' || c == '\U{FEFF}'
  }

  /** Every character of `s` is white space (so `s` trims to nothing). */
  predicate AllSpace(s: string) {
    forall i :: 0 <= i < |s| ==> IsJsSpace(s[i])
  }

  /** The index of the first character at or after `i` that is not white space
      (`|s|` when there is none). */
  function SkipLeading(s: string, i: nat): (j: nat)
    requires i <= |s|
    ensures i <= j <= |s|
    ensures forall k :: i <= k < j ==> IsJsSpace(s[k])
    ensures j < |s| ==> !IsJsSpace(s[j])
    decreases |s| - i
  {
    if i < |s| && IsJsSpace(s[i]) then SkipLeading(s, i + 1) else i
  }

  /** One past the index of the last character before `j` that is not white
      space (0 when there is none). */
  function SkipTrailing(s: string, j: nat): (i: nat)
    requires j <= |s|
    ensures i <= j
    ensures forall k :: i <= k < j ==> IsJsSpace(s[k])
    ensures i > 0 ==> !IsJsSpace(s[i - 1])
  {
    if j > 0 && IsJsSpace(s[j - 1]) then SkipTrailing(s, j - 1) else j
  }

  /** `trim()`: what is left after removing white space at both ends. It is
      empty exactly when `s` is all white space; otherwise it is the slice of
      `s` starting at the first non-space character, and only white space
      precedes or follows it. */
  function Trim(s: string): (r: string)
    ensures r == [] <==> AllSpace(s)
    ensures r != [] ==> !IsJsSpace(r[0]) && !IsJsSpace(r[|r| - 1])
    ensures SkipLeading(s, 0) + |r| <= |s|
    ensures var a := SkipLeading(s, 0);
      r == s[a..a + |r|] && AllSpace(s[..a]) && AllSpace(s[a + |r|..])
  {
    var a := SkipLeading(s, 0);
    var b := SkipTrailing(s, |s|);
    if a < b then
      assert AllSpace(s[b..]) by {
        forall k | 0 <= k < |s[b..]| ensures IsJsSpace(s[b..][k]) {
          assert s[b..][k] == s[b + k];
        }
      }
      s[a..b]
    else
      assert AllSpace(s) by {
        forall k | 0 <= k < |s| ensures IsJsSpace(s[k]) {
          if k >= b {
            assert b <= k < |s|;
          }
        }
      }
      []
  }

  /** `s.length` in JavaScript: characters outside the Basic Multilingual
      Plane take two UTF-16 code units. */
  function Utf16Length(s: string): (n: nat)
    ensures |s| <= n <= 2 * |s|
  {
    if s == [] then 0 else (if s[0] as int > 0xFFFF then 2 else 1) + Utf16Length(s[1..])
  }

  // ---------------------------------------------------------------------
  // The click handler's validation

  const EmptyAlert := "Please enter a claim to fact-check!"
  const ShortAlert := "Please enter a more detailed claim (at least 5 characters)."

  /** The outcome of validating the input box: an alert, or the trimmed
      claim that is sent to the backend. */
  datatype Validation = Rejected(alert: string) | Accepted(claim: string)

  /** The two checks of the click handler, on the trimmed input. */
  function ValidateClaim(input: string): (v: Validation)
    ensures v == Rejected(EmptyAlert) <==> AllSpace(input)
    ensures v == Rejected(ShortAlert) <==> !AllSpace(input) && Utf16Length(Trim(input)) < 5
    ensures v.Accepted? ==> v.claim == Trim(input) && |v.claim| >= 3
    ensures v.Accepted? ==> !IsJsSpace(v.claim[0]) && !IsJsSpace(v.claim[|v.claim| - 1])
    ensures |Trim(input)| >= 5 ==> v.Accepted?
  {
    var claim := Trim(input);
    if claim == [] then Rejected(EmptyAlert)
    else if Utf16Length(claim) < 5 then Rejected(ShortAlert)
    else Accepted(claim)
  }

  /** A claim the page lets through is never turned away by the backend
      for being missing. */
  lemma AcceptedClaimIsNotEmpty(input: string)
    requires ValidateClaim(input).Accepted?
    ensures !App.NoClaim(Some(ValidateClaim(input).claim))
  {
  }

  // ---------------------------------------------------------------------
  // The verdict banner

  /** Text, icon and header class of the verdict banner. */
  datatype Banner = Banner(text: string, icon: string, headerClass: string)

  /** The banner for a verdict outside the four the page knows. */
  const Fallback := Banner("Analysis Complete", "\U{2139}\U{FE0F}", "unclear")

  /** The verdict branch of the click handler. */
  function ShowVerdict(verdict: string): (b: Banner)
    ensures b.headerClass in App.Canonical
    ensures verdict in App.Canonical ==> b.headerClass == verdict
    ensures b == Fallback <==> verdict !in App.Canonical
  {
    if verdict == "false" then Banner("Marked as False", "\U{274C}", "false")
    else if verdict == "true" then Banner("Legitimate Claim", "\U{2705}", "true")
    else if verdict == "unclear" then Banner("Unclear Information", "\U{26A0}\U{FE0F}", "unclear")
    else if verdict == "partially-true" then Banner("Partially True", "\U{2797}", "partially-true")
    else Fallback
  }

  /** The four known verdicts get four different texts. */
  lemma KnownVerdictsAreDistinguished(v: string, w: string)
    requires v in App.Canonical && w in App.Canonical && v != w
    ensures ShowVerdict(v).text != ShowVerdict(w).text
  {
  }

  // ---------------------------------------------------------------------
  // The credibility score

  /** `data.credibilityScore || 50`: a missing or zero score shows as 50. */
  function ShownScore(score: Option<int>): (r: int)
    ensures r != 0
    ensures score == None || score == Some(0) ==> r == 50
    ensures score.Some? && score.value != 0 ==> r == score.value
  {
    if score == None || score.value == 0 then 50 else score.value
  }

  const High := "high-credibility"
  const Medium := "medium-credibility"
  const Low := "low-credibility"

  /** The one colour class the score gets. */
  function ScoreClass(score: int): (c: string)
    ensures c in {High, Medium, Low}
    ensures c == High <==> score >= 80
    ensures c == Medium <==> 60 <= score < 80
    ensures c == Low <==> score < 60
  {
    if score >= 80 then High else if score >= 60 then Medium else Low
  }

  /** The rank of a colour class, low to high. */
  function Rank(c: string): (n: nat) {
    if c == High then 2 else if c == Medium then 1 else 0
  }

  /** A higher score never gets a lower class. */
  lemma ScoreClassIsMonotone(a: int, b: int)
    requires a <= b
    ensures Rank(ScoreClass(a)) <= Rank(ScoreClass(b))
  {
  }

  // ---------------------------------------------------------------------
  // The rendered result

  const NoSummary := "No summary available from the analysis."

  /** The parts of the result card the page computes from the response. */
  datatype View = View(claim: string, banner: Banner, score: int, scoreClass: string, summary: string)

  /** Renders a successful response. The claim line shows the echoed claim
      between double quotes. */
  function Render(resp: App.FactCheckResponse): (v: View)
    ensures |v.claim| == |resp.claim| + 2 && v.claim[0] == '"' && v.claim[|v.claim| - 1] == '"'
    ensures v.claim[1..|v.claim| - 1] == resp.claim
    ensures v.banner == ShowVerdict(resp.verdict)
    ensures v.score == ShownScore(Some(resp.credibilityScore)) && v.scoreClass == ScoreClass(v.score)
    ensures resp.summary != "" ==> v.summary == resp.summary
    ensures resp.summary == "" ==> v.summary == NoSummary
  {
    var score := ShownScore(Some(resp.credibilityScore));
    View("\"" + resp.claim + "\"", ShowVerdict(resp.verdict), score, ScoreClass(score),
         if resp.summary == "" then NoSummary else resp.summary)
  }

  /** Whatever verdict the backend formats, the page shows the backend's
      own verdict and score: never the fallback banner and never the
      default score; true is high, partially-true medium, unclear and
      false low. */
  lemma BackendAndPageAgree(claim: string, verdict: string, analysis: string)
    ensures var resp := App.FormatResponse(claim, verdict, analysis);
      var v := Render(resp);
      && v.banner.headerClass == resp.verdict
      && v.banner != Fallback
      && v.score == resp.credibilityScore
      && (resp.verdict == "true" ==> v.scoreClass == High)
      && (resp.verdict == "partially-true" ==> v.scoreClass == Medium)
      && (resp.verdict in {"unclear", "false"} ==> v.scoreClass == Low)
  {
  }
}

=== FILE: database.dfy ===
/** The claim store: the fact-check table as a map from primary key to row,
    plus the next key the database will hand out, and the four operations
    the backend performs on it, each inside a commit-or-rollback session. */
module Database {
  import opened Wrappers
  import opened Models
  import FactOrder

  /** The committed contents of the table. */
  datatype Store = Store(rows: map<int, FactCheck>, nextId: int)

  /** The empty table: keys start at 1. */
  const Empty := Store(map[], 1)

  /** Every row sits under its own positive key, below the next key to be handed out. */
  ghost predicate Valid(s: Store) {
    && s.nextId >= 1
    && forall k :: k in s.rows ==> 1 <= k < s.nextId && s.rows[k].id == Some(k)
  }

  // ---------------------------------------------------------------------
  // The session wrapper

  /** An open session: what is committed, and the session's working copy. */
  datatype Session = Session(committed: Store, working: Store)

  function Open(s: Store): (sess: Session) {
    Session(s, s)
  }

  /** `session.commit()` called from inside the body. */
  function Commit(sess: Session): (after: Session) {
    Session(sess.working, sess.working)
  }

  /** How the body of a `with get_db_session()` block ended. */
  datatype BodyEnd<T> = Returned(value: T, session: Session) | Raised(error: string, session: Session)

  /** What leaves the `with` block: the body's value and the committed
      store, or the re-raised exception and the store after rollback. */
  datatype SessionEnd<T> = Committed(value: T, store: Store) | RolledBack(error: string, store: Store)

  /** `get_db_session`: commit when the body finishes normally (the final
      commit itself may fail with `commitFault`); on any exception roll back
      to what was last committed and re-raise. Closing the session has no
      effect on the store. */
  function GetDbSession<T>(end: BodyEnd<T>, commitFault: Option<string>): (r: SessionEnd<T>)
    ensures r.Committed? <==> end.Returned? && commitFault == None
    ensures r.Committed? ==> r.value == end.value && r.store == end.session.working
    ensures r.RolledBack? ==> r.store == end.session.committed
    ensures r.RolledBack? && end.Raised? ==> r.error == end.error
    ensures r.RolledBack? && end.Returned? ==> r.error == commitFault.value
  {
    match end
    case Returned(v, sess) =>
      if commitFault.Some? then RolledBack(commitFault.value, sess.committed)
      else Committed(v, sess.working)
    case Raised(e, sess) => RolledBack(e, sess.committed)
  }

  /** A body that never commits by itself leaves either its own working
      state or exactly the prior state: nothing in between. */
  lemma SessionIsAllOrNothing<T>(s: Store, end: BodyEnd<T>, commitFault: Option<string>)
    requires end.session.committed == s
    ensures GetDbSession(end, commitFault).store in {s, end.session.working}
    ensures GetDbSession(end, commitFault).RolledBack? ==> GetDbSession(end, commitFault).store == s
  {
  }

  // ---------------------------------------------------------------------
  // create_fact_check

  /** Where creating a record can raise: while adding and committing the
      row, or in the refresh that follows the body's own commit. */
  datatype CreateFault = NoCreateFault | InsertFailed(error: string) | RefreshFailed(error: string)

  /** The row `create_fact_check` inserts under key `id`. */
  function PendingRow(id: int, claim: string, now: Time): (r: FactCheck)
    ensures r.id == Some(id) && r.claim == claim && r.status == Pending
    ensures r.result == None && r.analysis == None && r.sourceUrl == None
  {
    NewFactCheck(claim, Some(Pending), now).(id := Some(id))
  }

  /** `create_fact_check`: returns the new key, or None when an exception
      was caught. The body commits before it refreshes, so a failing refresh
      leaves the row stored although None is returned. */
  function CreateFactCheck(s: Store, claim: string, now: Time, fault: CreateFault): (r: (Option<int>, Store))
    ensures r.0.Some? <==> fault == NoCreateFault
    ensures r.0.Some? ==> r.0.value == s.nextId
    ensures Valid(s) && r.0.Some? ==> r.0.value !in s.rows
    ensures fault.InsertFailed? ==> r.1 == s
    ensures !fault.InsertFailed? ==>
      r.1 == Store(s.rows[s.nextId := PendingRow(s.nextId, claim, now)], s.nextId + 1)
    ensures Valid(s) ==> Valid(r.1)
    ensures Valid(s) && r.0.Some? ==> r.0.value >= 1
  {
    var sess := Open(s);
    var added := Session(s, Store(s.rows[s.nextId := PendingRow(s.nextId, claim, now)], s.nextId + 1));
    var end: BodyEnd<int> :=
      match fault
      case InsertFailed(e) => Raised(e, added)
      case RefreshFailed(e) => Raised(e, Commit(added))
      case NoCreateFault => Returned(s.nextId, Commit(added));
    match GetDbSession(end, None)
    case Committed(id, st) => (Some(id), st)
    case RolledBack(_, st) => (None, st)
  }

  // ---------------------------------------------------------------------
  // update_fact_check

  /** Where updating a record can raise: in the select, or in the commit. */
  datatype UpdateFault = NoUpdateFault | SelectFailed(error: string) | CommitFailed(error: string)

  /** `update_fact_check`: when the key exists, overwrite status, result,
      analysis and updated_at and commit; when it does not, or on any
      exception, nothing changes. The caller learns neither way. The current
      status is not consulted. */
  function UpdateFactCheck(s: Store, id: int, status: string, result: string, analysis: string,
                           now: Time, fault: UpdateFault): (r: Store)
    ensures r.nextId == s.nextId && r.rows.Keys == s.rows.Keys
    ensures forall k :: k in s.rows && k != id ==> r.rows[k] == s.rows[k]
    ensures id !in s.rows || fault != NoUpdateFault ==> r == s
    ensures id in s.rows && fault == NoUpdateFault ==>
      && r.rows[id].status == status
      && r.rows[id].result == Some(result)
      && r.rows[id].analysis == Some(analysis)
      && r.rows[id].updatedAt == now
    ensures id in s.rows ==>
      && r.rows[id].id == s.rows[id].id
      && r.rows[id].claim == s.rows[id].claim
      && r.rows[id].sourceUrl == s.rows[id].sourceUrl
      && r.rows[id].createdAt == s.rows[id].createdAt
    ensures Valid(s) ==> Valid(r)
  {
    var sess := Open(s);
    var end: BodyEnd<()> :=
      if fault.SelectFailed? then Raised(fault.error, sess)
      else if id in s.rows then
        var row := s.rows[id].(status := status, result := Some(result),
                               analysis := Some(analysis), updatedAt := now);
        Returned((), Session(s, s.(rows := s.rows[id := row])))
      else Returned((), sess);
    var commitFault := if fault.CommitFailed? then Some(fault.error) else None;
    GetDbSession(end, commitFault).store
  }

  // ---------------------------------------------------------------------
  // get_fact_check_by_id

  /** A column value as it appears in the returned dict. */
  datatype Column = IntCol(i: int) | TextCol(s: string) | TimeCol(t: Time) | NullCol

  /** The eight keys of the dict `get_fact_check_by_id` returns. */
  const ColumnNames: set<string> :=
    {"id", "claim", "status", "result", "source_url", "analysis", "created_at", "updated_at"}

  /** An optional text field as a column value (`None` is SQL NULL). */
  function OptText(o: Option<string>): (c: Column) {
    if o.Some? then TextCol(o.value) else NullCol
  }

  /** An optional integer field as a column value. */
  function OptInt(o: Option<int>): (c: Column) {
    if o.Some? then IntCol(o.value) else NullCol
  }

  /** The dict built from a row. */
  function ToColumns(row: FactCheck): (d: map<string, Column>)
    ensures d.Keys == ColumnNames
  {
    map["id" := OptInt(row.id), "claim" := TextCol(row.claim), "status" := TextCol(row.status),
        "result" := OptText(row.result), "source_url" := OptText(row.sourceUrl),
        "analysis" := OptText(row.analysis), "created_at" := TimeCol(row.createdAt),
        "updated_at" := TimeCol(row.updatedAt)]
  }

  /** Reads an optional text field back from a column value, if it has that shape. */
  function OptTextOf(c: Column): (o: Option<Option<string>>) {
    match c
    case TextCol(t) => Some(Some(t))
    case NullCol => Some(None)
    case _ => None
  }

  /** Reads a record back from a dict of columns; None when a key is
      missing or a value has the wrong shape. */
  function FromColumns(d: map<string, Column>): (r: Option<FactCheck>)
    ensures r.Some? ==> ColumnNames <= d.Keys
  {
    if !(ColumnNames <= d.Keys) then None
    else
      var id := match d["id"] case IntCol(i) => Some(Some(i)) case NullCol => Some(None) case _ => None;
      var result := OptTextOf(d["result"]);
      var source := OptTextOf(d["source_url"]);
      var analysis := OptTextOf(d["analysis"]);
      if id.Some? && d["claim"].TextCol? && d["status"].TextCol? && result.Some? && source.Some?
         && analysis.Some? && d["created_at"].TimeCol? && d["updated_at"].TimeCol?
      then Some(FactCheck(id.value, d["claim"].s, d["status"].s, result.value, source.value,
                          analysis.value, d["created_at"].t, d["updated_at"].t))
      else None
  }

  /** The dict carries every field of the row: reading it back gives the row. */
  lemma ColumnsRoundTrip(row: FactCheck)
    ensures FromColumns(ToColumns(row)) == Some(row)
  {
  }

  /** `get_fact_check_by_id`: the eight columns of the row under `id`, or
      None when there is no such row or the session raised. */
  function GetFactCheckById(s: Store, id: int, fault: bool): (r: Option<map<string, Column>>)
    ensures r.Some? <==> !fault && id in s.rows
    ensures r.Some? ==> r.value.Keys == ColumnNames && FromColumns(r.value) == Some(s.rows[id])
  {
    if fault || id !in s.rows then None
    else
      ColumnsRoundTrip(s.rows[id]);
      Some(ToColumns(s.rows[id]))
  }

  /** Creating a record and reading it back at once gives a pending row
      with no result, analysis or source. */
  lemma CreateThenGet(s: Store, claim: string, now: Time)
    requires Valid(s)
    ensures
      var (id, s') := CreateFactCheck(s, claim, now, NoCreateFault);
      && id.Some?
      && var d := GetFactCheckById(s', id.value, false);
      && d.Some?
      && d.value["status"] == TextCol(Pending)
      && d.value["claim"] == TextCol(claim)
      && d.value["id"] == IntCol(id.value)
      && d.value["result"] == NullCol
      && d.value["analysis"] == NullCol
      && d.value["source_url"] == NullCol
  {
  }

  /** Nothing stops an update from overwriting a completed record, even
      back to "pending". */
  lemma CompletedCanBeOverwritten(s: Store, id: int, now: Time)
    requires id in s.rows && s.rows[id].status == Completed
    ensures UpdateFactCheck(s, id, Pending, "x", "y", now, NoUpdateFault).rows[id].status == Pending
  {
  }

  // ---------------------------------------------------------------------
  // get_all_fact_checks

  lemma NonEmptyHasMember(xs: set<int>)
    requires xs != {}
    ensures exists x :: x in xs
  {
    if forall x :: x !in xs {
      assert false;
    }
  }

  /** The limit `get_all_fact_checks` uses when its caller gives none. */
  const DefaultLimit := 100

  /** How many rows a `LIMIT limit` query returns (a negative limit means no limit). */
  function LimitCount(limit: int, size: nat): (n: nat)
    ensures n <= size
    ensures limit < 0 ==> n == size
    ensures limit >= 0 ==> n == if limit < size then limit else size
  {
    if limit < 0 || limit >= size then size else limit
  }

  /** `get_all_fact_checks()` called without a limit: the newest
      `DefaultLimit` rows. */
  method GetRecentFactChecks(s: Store, fault: bool) returns (r: seq<FactCheck>)
    ensures fault ==> r == []
    ensures !fault ==> |r| == LimitCount(DefaultLimit, |s.rows|)
    ensures |r| <= DefaultLimit
    ensures forall i :: 0 <= i < |r| ==> r[i] in s.rows.Values
    ensures forall i, j :: 0 <= i < j < |r| ==> r[i].createdAt >= r[j].createdAt
    ensures forall k, i :: k in s.rows && 0 <= i < |r| && s.rows[k].createdAt > r[i].createdAt
              ==> s.rows[k] in r
    ensures Valid(s) ==> forall i, j :: 0 <= i < j < |r| ==> r[i].id != r[j].id
  {
    r := GetAllFactChecks(s, DefaultLimit, fault);
  }

  /** `get_all_fact_checks`: at most `limit` rows, newest first, and no row
      left out that is newer than one returned; `[]` when the session raised. */
  method GetAllFactChecks(s: Store, limit: int, fault: bool) returns (r: seq<FactCheck>)
    ensures fault ==> r == []
    ensures !fault ==> |r| == LimitCount(limit, |s.rows|)
    ensures forall i :: 0 <= i < |r| ==> r[i] in s.rows.Values
    ensures forall i, j :: 0 <= i < j < |r| ==> r[i].createdAt >= r[j].createdAt
    ensures forall k, i :: k in s.rows && 0 <= i < |r| && s.rows[k].createdAt > r[i].createdAt
              ==> s.rows[k] in r
    ensures Valid(s) ==> forall i, j :: 0 <= i < j < |r| ==> r[i].id != r[j].id
  {
    if fault {
      return [];
    }
    var rows := s.rows;
    var left := rows.Keys;
    var ordered: seq<int> := [];
    while left != {}
      invariant FactOrder.AllIn(rows, ordered) && FactOrder.NewestFirst(rows, ordered)
      invariant left <= rows.Keys
      invariant forall x :: x in ordered <==> x in rows && x !in left
      invariant |ordered| + |left| == |rows|
      decreases left
    {
      assert exists x :: x in left by {
        NonEmptyHasMember(left);
      }
      var k :| k in left;
      ordered := FactOrder.Insert(rows, k, ordered);
      left := left - {k};
    }
    var n := LimitCount(limit, |rows|);
    var top := ordered[..n];
    r := seq(n, i requires 0 <= i < n => rows[top[i]]);
    forall i, j | 0 <= i < j < |r|
      ensures r[i].createdAt >= r[j].createdAt
    {
      FactOrder.NewestFirstTimes(rows, ordered, i, j);
    }
    forall k, i | k in rows && 0 <= i < |r| && rows[k].createdAt > r[i].createdAt
      ensures rows[k] in r
    {
      assert k in ordered;
      var j :| 0 <= j < |ordered| && ordered[j] == k;
      if j >= n {
        FactOrder.NewestFirstTimes(rows, ordered, i, j);
      }
      assert r[j] == rows[k];
    }
  }
}

=== FILE: fact_order.dfy ===
/** The newest-first order `get_all_fact_checks` asks of the database
    (`ORDER BY created_at DESC`). SQL leaves the order of equal timestamps
    open; the model breaks such ties by the larger id, which is one order the
    query may return. */
module FactOrder {
  import opened Models

  /** Key `a` is listed before key `b`: a later creation time, or the same
      time and a larger id. */
  predicate Before(rows: map<int, FactCheck>, a: int, b: int)
    requires a in rows && b in rows
  {
    rows[a].createdAt > rows[b].createdAt
    || (rows[a].createdAt == rows[b].createdAt && a > b)
  }

  /** Every key of `ks` names a row. */
  predicate AllIn(rows: map<int, FactCheck>, ks: seq<int>) {
    forall i :: 0 <= i < |ks| ==> ks[i] in rows
  }

  /** `ks` lists rows newest first (and so lists no key twice). */
  predicate NewestFirst(rows: map<int, FactCheck>, ks: seq<int>)
    requires AllIn(rows, ks)
  {
    forall i, j :: 0 <= i < j < |ks| ==> Before(rows, ks[i], ks[j])
  }

  /** Inserts key `k` into a newest-first listing at its place. */
  function Insert(rows: map<int, FactCheck>, k: int, ks: seq<int>): (r: seq<int>)
    requires k in rows && AllIn(rows, ks) && NewestFirst(rows, ks)
    requires k !in ks
    ensures AllIn(rows, r) && NewestFirst(rows, r)
    ensures |r| == |ks| + 1
    ensures forall x :: x in r <==> x == k || x in ks
    decreases |ks|
  {
    if ks == [] || Before(rows, k, ks[0]) then
      [k] + ks
    else
      var rest := Insert(rows, k, ks[1..]);
      assert forall x :: x in rest ==> Before(rows, ks[0], x);
      [ks[0]] + rest
  }

  /** Listing a newest-first sequence keeps, among any two rows, the newer one first. */
  lemma NewestFirstTimes(rows: map<int, FactCheck>, ks: seq<int>, i: int, j: int)
    requires AllIn(rows, ks) && NewestFirst(rows, ks)
    requires 0 <= i <= j < |ks|
    ensures rows[ks[i]].createdAt >= rows[ks[j]].createdAt
  {
    if i < j {
      assert Before(rows, ks[i], ks[j]);
    }
  }
}

=== FILE: json_values.dfy ===
/** JSON documents as Python's `json` module sees them. Object member order
    is not kept (the backend only builds one-member objects). */
module JsonValues {

  datatype Json =
    | JNull
    | JBool(b: bool)
    | JNumber(literal: string)
    | JString(s: string)
    | JArray(items: seq<Json>)
    | JObject(members: map<string, Json>)

  /** The text `json.dumps(doc)` produces. The model keeps the document;
      the character-level rendering is not modelled. */
  datatype JsonText = Dumped(doc: Json)
}

=== FILE: models.dfy ===
/** The `FactCheck` table row and its field defaults. */
module Models {
  import opened Wrappers

  /** A reading of the wall clock (`datetime.utcnow()`), as abstract ticks. */
  type Time = nat

  const Pending := "pending"
  const Completed := "completed"

  /** One row of the fact-check table. `id` stays `None` until the store
      assigns the primary key. */
  datatype FactCheck = FactCheck(
    id: Option<int>,
    claim: string,
    status: string,
    result: Option<string>,
    sourceUrl: Option<string>,
    analysis: Option<string>,
    createdAt: Time,
    updatedAt: Time)

  /** `FactCheck(claim=..., status=...)`: the record the constructor builds,
      `status` given or left to its default, both timestamps read at `now`. */
  function NewFactCheck(claim: string, status: Option<string>, now: Time): (r: FactCheck)
    ensures r.id == None
    ensures r.claim == claim
    ensures status == None ==> r.status == Pending
    ensures status.Some? ==> r.status == status.value
    ensures r.result == None && r.sourceUrl == None && r.analysis == None
    ensures r.createdAt == now && r.updatedAt == now
  {
    FactCheck(None, claim, status.GetOr(Pending), None, None, None, now, now)
  }
}

=== FILE: pipeline.dfy ===
/** The backend and the page put together: the handler calling the engine,
    and what the page then shows. The engine only ever answers "Needs
    Review", "Uncertain" or "Error", none of which the handler's table
    knows, so every completed check reaches the page as `unclear`. */
module Pipeline {
  import opened Wrappers
  import opened Models
  import Text
  import Database
  import AiModel
  import App
  import Client
  import JsonValues

  /** The engine's result tokens, lower-cased as the handler stores them. */
  const StoredTokens: set<string> := {"needs review", "uncertain", "error"}

  lemma LowerNeedsReview()
    ensures Text.Lower(AiModel.NeedsReview) == "needs review"
  {
  }

  lemma LowerUncertain()
    ensures Text.Lower(AiModel.Uncertain) == "uncertain"
  {
  }

  lemma LowerError()
    ensures Text.Lower(AiModel.ErrorToken) == "error"
  {
  }

  /** Lower-casing the engine's tokens gives the stored tokens. */
  lemma EngineTokensLowered(t: string)
    requires t in AiModel.ResultTokens
    ensures Text.Lower(t) in StoredTokens
  {
    LowerNeedsReview();
    LowerUncertain();
    LowerError();
  }

  /** The handler's table knows none of the stored tokens: each maps to
      `unclear`, score 50. */
  lemma StoredTokensAreUnclear(l: string)
    requires l in StoredTokens || l == "unclear"
    ensures App.VerdictMap(l) == "unclear"
    ensures App.CredibilityScore(App.VerdictMap(l)) == 50
  {
  }

  /** The verdict the handler takes from the engine is always one of the
      stored tokens, or `unclear` when the engine raised. */
  lemma AnalyseGivesStoredToken(claim: string, env: App.Env)
    ensures env.engineFault == None ==> App.Analyse(claim, env).0 in StoredTokens
    ensures env.engineFault.Some? ==> App.Analyse(claim, env).0 == "unclear"
  {
    if env.engineFault == None {
      EngineTokensLowered(AiModel.Verify(claim, env.apiKey, env.script).output["result"]);
    }
  }

  /** Every request the handler completes answers `unclear` with score 50,
      whatever the model and the search provider do, and records status
      "completed" with one of the three lower-cased engine tokens (or
      `unclear` when the engine raised). */
  lemma CompletedChecksAreUnclear(arg: Option<string>, s: Database.Store, env: App.Env)
    ensures var r := App.CheckClaims(arg, s, env);
      r.response.code == 200 ==>
        && r.response.body.fact.verdict == "unclear"
        && r.response.body.fact.credibilityScore == 50
        && r.effects[2].status == Completed
        && (env.engineFault == None ==> r.effects[2].result in StoredTokens)
        && (env.engineFault.Some? ==> r.effects[2].result == "unclear")
  {
    var r := App.CheckClaims(arg, s, env);
    if r.response.code == 200 {
      AnalyseGivesStoredToken(arg.value, env);
      StoredTokensAreUnclear(r.effects[2].result);
    }
  }

  /** From the input box to the result card: a claim the page accepts, on a
      healthy store, always comes back as "Unclear Information" with score
      50 in the low-credibility colour, whatever the model and the search
      provider do. */
  lemma EveryAcceptedClaimShowsUnclear(input: string, s: Database.Store, env: App.Env)
    requires Database.Valid(s) && env.createFault == Database.NoCreateFault
    requires Client.ValidateClaim(input).Accepted?
    ensures var r := App.CheckClaims(Some(Client.ValidateClaim(input).claim), s, env);
      && r.response.code == 200
      && var view := Client.Render(r.response.body.fact);
      && view.banner.text == "Unclear Information"
      && view.banner.headerClass == "unclear"
      && view.score == 50
      && view.scoreClass == Client.Low
  {
    var claim := Client.ValidateClaim(input).claim;
    Client.AcceptedClaimIsNotEmpty(input);
    CompletedChecksAreUnclear(Some(claim), s, env);
    var r := App.CheckClaims(Some(claim), s, env);
    Client.BackendAndPageAgree(claim, r.effects[2].result, r.effects[2].analysis);
  }

  /** The worked request below: the claim, the model's search query, and
      the model's final answer. */
  const SampleClaim := "Water boils at 100 degrees at sea level."
  const SampleQuery := "boiling point of water"
  const SampleAnswer := "Sources agree."

  /** The model asks for one search, the provider answers, and the model
      then answers in text. */
  function SampleScript(): (script: AiModel.Script)
    ensures script.setup == None && script.first.Replied?
    ensures script.followUp.Replied?
  {
    var call := AiModel.FunctionCall(AiModel.SearchToolName, Some(map["query" := JsonValues.JString(SampleQuery)]));
    AiModel.Script(
      None,
      AiModel.Replied(AiModel.Reply([AiModel.CallPart(call)], "no parts")),
      AiModel.Responded(200, "OK", Success(JsonValues.JObject(map["organic" := JsonValues.JArray([])]))),
      AiModel.Replied(AiModel.Reply([AiModel.TextPart(SampleAnswer)], "no parts")),
      "list index (0) out of range")
  }

  /** A worked request: one search, then the model's answer becomes the
      analysis. The record ends completed with "needs review"; the page is
      told `unclear`, and the summary is the answer. */
  lemma SearchedClaimScenario(s: Database.Store)
    requires Database.Valid(s)
    ensures
      var env := App.Env(Database.NoCreateFault, 1, None, Some("key"), SampleScript(), Database.NoUpdateFault, 2);
      var r := App.CheckClaims(Some(SampleClaim), s, env);
      && r.response.code == 200
      && r.response.body.fact.verdict == "unclear"
      && r.response.body.fact.summary == SampleAnswer
      && r.store.rows[s.nextId].status == Completed
      && r.store.rows[s.nextId].result == Some("needs review")
      && r.store.rows[s.nextId].analysis == Some(SampleAnswer)
  {
    var script := SampleScript();
    var env := App.Env(Database.NoCreateFault, 1, None, Some("key"), script, Database.NoUpdateFault, 2);
    var follow := script.followUp.reply;
    assert !AiModel.HasCall(follow) by {
      forall i | 0 <= i < |follow.parts| ensures !follow.parts[i].CallPart? {
        assert follow.parts[i] == AiModel.TextPart(SampleAnswer);
      }
    }
    AiModel.SearchRoundTrip(SampleClaim, Some("key"), script);
    LowerNeedsReview();
    assert App.Analyse(SampleClaim, env) == ("needs review", SampleAnswer);
  }
}

=== FILE: text.dfy ===
/** Python string operations the backend relies on. */
module Text {

  /** True for the ASCII upper-case letters. */
  predicate IsUpper(c: char) {
    'A' <= c <= 'Z'
  }

  /** Lower-cases one character (ASCII letters only). */
  function LowerChar(c: char): (r: char)
    ensures !IsUpper(r)
    ensures !IsUpper(c) ==> r == c
  {
    if IsUpper(c) then (c as int + 32) as char else c
  }

  /** `str.lower()`, restricted to the ASCII letters. */
  function Lower(s: string): (r: string)
    ensures |r| == |s|
    ensures forall i :: 0 <= i < |s| ==> r[i] == LowerChar(s[i])
  {
    seq(|s|, i requires 0 <= i < |s| => LowerChar(s[i]))
  }

  /** No character of `s` is an ASCII upper-case letter. */
  predicate IsLowerCase(s: string) {
    forall i :: 0 <= i < |s| ==> !IsUpper(s[i])
  }

  /** Lower-casing produces lower-case text, and lower-case text is its own lower case. */
  lemma LowerIsIdempotent(s: string)
    ensures IsLowerCase(Lower(s))
    ensures Lower(Lower(s)) == Lower(s)
    ensures IsLowerCase(s) ==> Lower(s) == s
  {
    var l := Lower(s);
    assert forall i :: 0 <= i < |l| ==> !IsUpper(l[i]);
    assert forall i :: 0 <= i < |l| ==> Lower(l)[i] == l[i];
    if IsLowerCase(s) {
      assert forall i :: 0 <= i < |s| ==> l[i] == s[i];
    }
  }

  /** The decimal digit for `d`. */
  function Digit(d: nat): (c: char)
    requires d < 10
    ensures '0' <= c <= '9'
  {
    ('0' as int + d) as char
  }

  /** The value of a decimal digit. */
  function DigitValue(c: char): (d: nat)
    requires '0' <= c <= '9'
    ensures d < 10
  {
    c as int - '0' as int
  }

  /** The value of a non-empty string of decimal digits. */
  function DigitsValue(s: string): (n: nat)
    requires forall i :: 0 <= i < |s| ==> '0' <= s[i] <= '9'
  {
    if s == [] then 0 else 10 * DigitsValue(s[..|s| - 1]) + DigitValue(s[|s| - 1])
  }

  /** `str(n)` for a natural number: its decimal representation. */
  function NatToString(n: nat): (r: string)
    ensures |r| > 0
    ensures forall i :: 0 <= i < |r| ==> '0' <= r[i] <= '9'
    ensures DigitsValue(r) == n
    ensures |r| > 1 ==> r[0] != '0'
  {
    if n < 10 then [Digit(n)]
    else
      var r := NatToString(n / 10) + [Digit(n % 10)];
      assert r[..|r| - 1] == NatToString(n / 10);
      r
  }
}

=== FILE: wrappers.dfy ===
/** Failure-carrying datatypes shared by the rest of the model.
    `Option` stands for Python's `Optional[...]` (None or a value);
    `Result` stands for a call that either returns a value or raises,
    the error carrying the exception's message. */
module Wrappers {

  datatype Option<+T> = None | Some(value: T) {

    /** The value, or `default` when absent (Python's `x if x is not None else d`). */
    function GetOr(default: T): (r: T)
      ensures Some? ==> r == value
      ensures None? ==> r == default
    {
      match this
      case Some(v) => v
      case None => default
    }
  }

  datatype Result<+T, +E> = Success(value: T) | Failure(error: E)
}
